=== FILE: README.md ===
# Study timer: phase state machine, session accounting and history

A Dafny model of the core of a browser study/break timer (`script.js`). The
timer alternates a study phase and a break phase of configured lengths,
counts down once per second, and, when a study phase ends, saves a record of
how many minutes it took: the wall-clock minutes since the phase was first
started, rounded, or the configured study minutes when that is unavailable or
not positive. The saved history is shown newest first with a per-entry delete,
can be deleted as a whole, is summed per date for a bar chart, and is summed
for "today" beside the list.

Modules:

- `Options` — the optional session-start stamp.
- `Clock` — `formatClock` (`M:SS`) and a decimal reader that reads the face back.
- `Session` — `Math.round(ms / 60000)`, the truthiness of the stamp, and the
  reconciliation of the saved minutes.
- `History` — records, appending, the newest-first view, deletion of a shown
  entry (with `splice` semantics), delete-all, per-date totals and the
  today-total loop.
- `Aggregate` — `aggregateByDate` as a list of `(date, total)` buckets in
  first-appearance order, and the chart's label/value series.
- `Timer` — the immutable timer state and the transitions `Start`, `Pause`,
  `Reset`, `AutoStart` and `Tick`.
- `Controller` — events (ticks, clicks, the delayed auto-start, deletions),
  `Step`/`Run` over event sequences, and the invariants over any sequence.

Modelling choices:

- The wall clock (`Date.now()`), the locale date string and the locale time
  string are parameters of the events that use them.
- The interval handle is the flag `handle`. `liveIntervals` counts the
  intervals that are actually scheduled, so "at most one interval" is a
  proved invariant rather than a consequence of the representation.
- The one-second `setTimeout` that restarts the timer after a phase ends is a
  counter `pendingAutoStarts`. A phase end increments it and the
  `AutoStartFired` event consumes one. As in the program, `Reset` and `Pause`
  do not cancel it.
- A tick is delivered only while an interval is live.
- `sessionStartTime` is an `Option<int>`, and the program's truthiness test
  is the predicate `Stamped`. A timestamp of 0 therefore counts as no stamp,
  as `if (sessionStartTime)` does.
- `formatClock` is defined for every integer with JavaScript's truncating
  `%`, so a negative argument gives the program's garbled text (`-1:0-1`).
  Under the timer invariant the face is never negative.
- `splice(i, 1)` follows JavaScript's rules for any index. The delete buttons
  only ever pass in-range indices.
- The `confirm()` dialogs are a `confirmed` flag. Declined means no change.
- A saved record's minutes are `Math.round(durationMin)`. `durationMin` is
  either an already-whole rounded value or the configured study minutes,
  which this model takes as an integer. So the outer rounding is the identity
  here.
- The fallback to the configured minutes applies whenever the rounded elapsed
  minutes are not positive, so a negative elapsed time falls back too, not
  only a zero one (`mins > 0`, script.js:181).
- The program's storage read (`JSON.parse(localStorage.getItem(...)) || []`)
  has no error handling. An absent entry gives the empty list, but malformed
  stored text throws; it does not silently default to empty. The model starts
  from any given list of records, so neither case appears in it.

## Model

| member | source | states |
|---|---|---|
| `Clock.NatToString` | script.js:32 | the decimal text of a whole number is non-empty, all digits, has no leading zero (starts with `0` only for 0), and is one character exactly for values below ten |
| `Clock.IntToString` | script.js:32 | no contract: a minus sign before the magnitude for negative numbers; see `Clock.NatToString` and `Clock.FormatClockNegativeExample` |
| `Clock.JsRem` | script.js:31 | no contract: JavaScript's `%`, whose remainder takes the dividend's sign; see `Clock.FormatClockMeaning` and `Clock.FormatClockNegativeExample` |
| `Clock.FormatClock` | script.js:29-33 | for non-negative seconds the text has at least four characters with the colon third from the end |
| `Clock.FormatClockMeaning` | script.js:29-33 | for seconds >= 0 the face is canonical minutes, a colon and exactly two second digits; the seconds read below 60 and minutes * 60 + seconds equals the input |
| `Clock.FormatClockRoundTrip` | script.js:29-33 | reading the face back with `ParseClock` returns the seconds it was rendered from |
| `Clock.FormatClockNegativeExample` | script.js:29-33 | one second below zero renders as `-1:0-1` (floor division and truncating remainder) |
| `Session.RoundMinutes` | script.js:179 | the result is the nearest whole minute to the milliseconds, with halves rounded up: 60000r - 30000 <= ms < 60000r + 30000 |
| `Session.Stamped` | script.js:177 | no contract: the truthiness of `sessionStartTime`, under which both `null` and 0 count as no stamp; see `Session.SessionMinutes` and `Timer.Start` |
| `Session.SessionMinutes` | script.js:174-182 | without a truthy stamp, or when the elapsed time is under half a minute, the configured minutes are used; otherwise the result is at least 1 and is the elapsed time rounded to the nearest minute |
| `Session.SessionMinutesPositive` | script.js:176-181 | with positive configured minutes a saved duration is never 0 |
| `Session.SessionMinutesExamples` | script.js:176-181 | 130 s since the stamp gives 2 minutes; no stamp gives the configured minutes |
| `History.AppendSession` | script.js:45-52 | saving appends exactly one record with the given date, time and minutes, and every earlier record is unchanged |
| `History.Reverse` | script.js:62 | the newest-first view has as many entries as the history; which entry sits where is stated by `History.ReverseIndex` |
| `History.ReverseIndex` | script.js:62-63 | the entry at position r of the newest-first view is the record r places from the end of the history, `sessions[len-1-r]` |
| `History.OriginalIndex` | script.js:62-63 | for a position r of the newest-first view, `len-1-r` is a valid index, and the record there is the one the view shows at r |
| `History.SpliceStart` | script.js:84 | the resolved `splice` start never passes the length, and an index within 0 .. length is used as given |
| `History.Splice1` | script.js:84 | an in-range `splice(i, 1)` drops exactly element i and shifts the later ones down by one. A start past the end changes nothing. A negative start on a non-empty list drops the element that many places from the end, or the first element if the start reaches back past the beginning |
| `History.DeleteDisplayed` | script.js:81-87 | a declined confirmation changes nothing; a confirmed delete at shown position r removes exactly the record at original index len-1-r |
| `History.DeleteDisplayedOutOfRange` | script.js:84 | a negative shown position deletes nothing. A position p with len <= p < 2*len deletes original index 2*len-1-p, the record shown at p-len. A larger position deletes the oldest record |
| `History.DeleteDisplayedRemovesShownEntry` | script.js:62-87 | after deleting shown position r, the newest-first view is the old view without its r-th entry, and the history keeps every other record (as a multiset) |
| `History.DeleteAll` | script.js:240-245 | confirmed, the history becomes empty; declined, it is unchanged |
| `History.TodayTotal` | script.js:58-100 | the loop over the newest-first view returns the sum of durations of the records dated today |
| `Aggregate.AggregateByDateCorrect` | script.js:107-113 | the aggregate's keys are the history's dates, each once, in first-appearance order; the value under any date is that date's total (0 if absent); the values sum to the total of all durations |
| `Aggregate.AggregateBuckets` | script.js:107-113 | every bucket's value is the sum of the durations of the records carrying its date |
| `Aggregate.TodayTotalMatchesAggregate` | script.js:100-113 | today's total equals the aggregate's bucket for today, and is 0 when today has no bucket |
| `Aggregate.ChartSeries` | script.js:115-124 | an empty history gives the single bar "No Data" with value 0; otherwise there is one label per distinct date in first-appearance order, with that date's total as its value |
| `Aggregate.AggregateExample` | script.js:107-113 | records of 5 and 10 minutes on "1/1" and 3 minutes on "1/2" aggregate to "1/1" 15 then "1/2" 3 |
| `Aggregate.AggregateByDate` | script.js:107-113 | there are never more buckets than records, and there are none exactly when the history is empty; what the buckets hold is stated by `Aggregate.AggregateByDateCorrect` |
| `Aggregate.AddTo` | script.js:110 | adding a record's minutes adds at most one bucket and leaves at least one; its effect on keys, values and sum is stated by `Aggregate.AddToDates`, `Aggregate.AddToLookup` and `Aggregate.AddToSum` |
| `Aggregate.AddToDates` | script.js:110 | an existing date keeps the key list unchanged, and a new date is appended at the end |
| `Aggregate.AddToLookup` | script.js:110 | the value under the added date grows by the minutes, and every other date's value is unchanged |
| `Aggregate.AddToSum` | script.js:110 | the sum of all values grows by exactly the added minutes |
| `Aggregate.Lookup` | script.js:110 | no contract: the value stored under the date, or 0 when the key is absent (the `agg[date]` read with a 0 default); see `Aggregate.LookupBucket` and `Aggregate.LookupAbsent` |
| `Aggregate.LookupBucket` | script.js:110 | with distinct keys, looking up a bucket's own date yields that bucket's value |
| `Aggregate.LookupAbsent` | script.js:110 | looking up a date with no bucket yields 0 |
| `Aggregate.Dates` | script.js:117 | the key list has one entry per bucket, each that bucket's date, in bucket order |
| `Aggregate.Totals` | script.js:118 | the values list has one entry per bucket, each that bucket's total, in bucket order |
| `Timer.Initial` | script.js:20-24 | the page starts in a stopped, full-length study phase with no stamp, no handle, no live interval and no pending auto-start, which satisfies the timer invariant |
| `Timer.PhaseLength` | script.js:189 | no contract: the configured length of the study or the break phase |
| `Timer.Valid` | script.js:162-237 | no contract: the timer invariant that every event keeps; see `Controller.RunPreservesValid` |
| `Timer.ClearHandle` | script.js:167-168 | clearing the handle always leaves none set; a set handle's live interval is cancelled (one fewer live); with no handle nothing changes |
| `Timer.Start` | script.js:200-214 | starting while running changes nothing. Otherwise the timer runs with a set handle, and the countdown, phase and pending auto-starts are unchanged. A study phase without a truthy stamp is stamped with now. An existing stamp and a break phase keep their stamp. A stale handle's interval is replaced, not added to |
| `Timer.Pause` | script.js:216-225 | pausing a stopped timer changes nothing; pausing a running one stops it and clears its interval while keeping the countdown, phase, stamp and pending auto-starts |
| `Timer.Reset` | script.js:227-237 | from any state: a stopped study phase of full length, with no handle and no stamp. From a valid state this is exactly the initial state, except that pending auto-starts are kept |
| `Timer.AutoStart` | script.js:192-196 | with none pending nothing happens; otherwise one pending start is consumed and the timer runs in its current phase with its current countdown |
| `Timer.Tick` | script.js:162-198 | the countdown drops by exactly one and, while positive, nothing else changes. At zero the timer stops, clears its interval, flips the phase, loads the new phase's full length and schedules one auto-start. A finished study phase appends exactly one record with the reconciled minutes and clears the stamp. A finished break records nothing |
| `Controller.StepPreservesValid` | script.js:162-245 | with both phase lengths at least one second, every event keeps the timer invariant: countdown within 1 .. phase length, handle set exactly while running, one live interval exactly while the handle is set, a stamp while a study phase runs, none during a break |
| `Controller.RunPreservesValid` | script.js:162-245 | with both phase lengths at least one second, any sequence of events keeps the timer invariant |
| `Controller.HandleDiscipline` | script.js:167-229 | no contract: the handle is set exactly while running and names the one live interval; see `Controller.RunKeepsHandleDiscipline` |
| `Controller.StepKeepsHandleDiscipline` | script.js:162-245 | every event keeps the handle discipline, whatever the configuration |
| `Controller.RunKeepsHandleDiscipline` | script.js:162-245 | any sequence of events keeps the handle discipline, whatever the configuration |
| `Controller.AtMostOneInterval` | script.js:200-237 | from page load, for every configuration and after any events, at most one interval is live, and one is live exactly while the timer runs |
| `Controller.CountdownInBounds` | script.js:162-190 | from page load, with both phase lengths at least one second, the countdown lies within 1 .. the current phase length after any events |
| `Controller.ControlsKeepHistory` | script.js:200-237 | start, pause, reset and the auto-start never change the history |
| `Controller.CountdownBeforeEnd` | script.js:162-166 | k < timeLeft ticks of a running timer lower the countdown by k and change nothing else |
| `Controller.PhaseCompletes` | script.js:162-196 | a running phase with n seconds left ends on exactly the n-th tick with one phase flip and one pending auto-start; one record is appended exactly when it was a study phase, and earlier records are unchanged; a further tick changes nothing |
| `Controller.ResetDoesNotCancelAutoStart` | script.js:192-196 | after a reset with an auto-start pending, the auto-start still fires and the timer runs a fresh, newly stamped study phase |
| `Controller.PauseDoesNotCancelAutoStart` | script.js:192-196 | after a pause with an auto-start pending, the auto-start still fires and the timer runs |
| `Controller.ResumeKeepsStamp` | script.js:206-209 | pausing a stamped study phase and starting it again keeps the original stamp, so paused time counts towards the saved minutes |
| `Controller.EndToEndExample` | script.js:162-214 | with one-second phases, which in the program imply a fallback of `Math.round(1/60) = 0` minutes: start, one tick and the auto-start leave one record of 0 minutes (the fallback, since the elapsed second also rounds to 0) and a running break phase |
| `Controller.Step` | script.js:240-250 | no contract: routes each event to its handler, and a tick arrives only while an interval is live. A delete position outside the shown list is not guarded. A position at or beyond the list length goes through `splice`'s negative-start rule: it deletes the record shown at position minus length, or the oldest one. A negative position is past the end and changes nothing. No rendered button sends such a position. See `Controller.StepPreservesValid` and `Controller.ControlsKeepHistory` |
| `Controller.Run` | script.js:247-250 | no contract: applies events in order; see `Controller.RunPreservesValid`, `Controller.PhaseCompletes` and `Controller.RunAppend` |
| `Controller.RunAppend` | script.js:247-250 | running two event sequences one after the other equals running their concatenation |

## Left out

- DOM updates, text of the status line, and enabling/disabling the buttons: presentation only.
- Chart.js rendering (`new Chart`, `destroy`, colours, `suggestedMax`): a call into a foreign library; only the label/value derivation is modelled (`Aggregate.ChartSeries`).
- `localStorage` reads and writes and JSON (de)serialisation, including the distinction between removing the entry and storing `[]`: I/O. The model's history is the in-memory list.
- Real-time scheduling by `setInterval`/`setTimeout`: replaced by explicit tick and auto-start events, which may arrive in any order.
- Fractional `STUDY_TIME_MIN`/`BREAK_TIME_MIN` and the floating-point `Math.round(... * 60)`: the phase lengths in whole seconds and the study minutes as an integer are configuration parameters.
- `toLocaleDateString`/`toLocaleTimeString`: opaque strings supplied with the tick event and for the today total.
- `totalToday.toFixed(0)`: durations are whole numbers, so the formatting is the decimal text of the sum and is not modelled separately.
- Session.RoundMinutes: the program divides in floating point before rounding; the model uses exact rational rounding, which agrees except for rounding error near half-minute boundaries at astronomically large millisecond values.

=== FILE: aggregate.dfy ===
/** `aggregateByDate` (script.js): per-date minute sums over the history, kept
    in the order in which each date first appears (the key order of the
    object the program builds, since its keys are date strings and never
    array-index-like), and the label/value series handed to the chart. */
module Aggregate {

  import opened History

  /** One key of the aggregate object with its summed minutes. */
  datatype Bucket = Bucket(date: string, total: int)

  /** The series handed to the chart: one label and one value per bar. */
  datatype Series = Series(labels: seq<string>, values: seq<int>)

  predicate Distinct<T(==)>(s: seq<T>) {
    forall i, j :: 0 <= i < j < |s| ==> s[i] != s[j]
  }

  function Dates(agg: seq<Bucket>): (r: seq<string>)
    ensures |r| == |agg|
    ensures forall i :: 0 <= i < |agg| ==> r[i] == agg[i].date
  {
    if |agg| == 0 then [] else [agg[0].date] + Dates(agg[1..])
  }

  function Totals(agg: seq<Bucket>): (r: seq<int>)
    ensures |r| == |agg|
    ensures forall i :: 0 <= i < |agg| ==> r[i] == agg[i].total
  {
    if |agg| == 0 then [] else [agg[0].total] + Totals(agg[1..])
  }

  /** The value stored under `date`, or 0 when the key is absent (the
      program's `agg[date] || 0`). */
  function Lookup(agg: seq<Bucket>, date: string): int {
    if |agg| == 0 then 0
    else if agg[0].date == date then agg[0].total
    else Lookup(agg[1..], date)
  }

  function SumTotals(agg: seq<Bucket>): int {
    if |agg| == 0 then 0 else agg[0].total + SumTotals(agg[1..])
  }

  /** `agg[date] = (agg[date] || 0) + minutes`: an existing key keeps its place
      and grows; a new key goes at the end. */
  function AddTo(agg: seq<Bucket>, date: string, minutes: int): (r: seq<Bucket>)
    ensures |agg| <= |r| <= |agg| + 1
    ensures |r| >= 1
  {
    if |agg| == 0 then [Bucket(date, minutes)]
    else if agg[0].date == date then [Bucket(date, agg[0].total + minutes)] + agg[1..]
    else [agg[0]] + AddTo(agg[1..], date, minutes)
  }

  /** `aggregateByDate()`: the records folded in history order. */
  function AggregateByDate(sessions: seq<Record>): (r: seq<Bucket>)
    ensures |r| <= |sessions|
    ensures |r| == 0 <==> |sessions| == 0
  {
    if |sessions| == 0 then []
    else
      var last := sessions[|sessions| - 1];
      AddTo(AggregateByDate(sessions[..|sessions| - 1]), last.date, last.duration)
  }

  /** Reference definition: the dates of the history, each once, in order of
      first appearance. */
  function DistinctDates(sessions: seq<Record>): seq<string> {
    if |sessions| == 0 then []
    else
      var prior := DistinctDates(sessions[..|sessions| - 1]);
      var d := sessions[|sessions| - 1].date;
      if d in prior then prior else prior + [d]
  }

  lemma {:induction false} AddToDates(agg: seq<Bucket>, date: string, minutes: int)
    ensures Dates(AddTo(agg, date, minutes)) == if date in Dates(agg) then Dates(agg) else Dates(agg) + [date]
    decreases |agg|
  {
    if |agg| > 0 && agg[0].date != date {
      AddToDates(agg[1..], date, minutes);
      assert AddTo(agg, date, minutes)[1..] == AddTo(agg[1..], date, minutes);
      assert date in Dates(agg) <==> date in Dates(agg[1..]);
    } else if |agg| > 0 {
      assert AddTo(agg, date, minutes)[1..] == agg[1..];
      assert Dates(agg)[0] == date;
    }
  }

  lemma {:induction false} AddToLookup(agg: seq<Bucket>, date: string, minutes: int, key: string)
    ensures Lookup(AddTo(agg, date, minutes), key) == Lookup(agg, key) + (if key == date then minutes else 0)
    decreases |agg|
  {
    if |agg| > 0 && agg[0].date != date {
      AddToLookup(agg[1..], date, minutes, key);
      assert AddTo(agg, date, minutes)[1..] == AddTo(agg[1..], date, minutes);
    } else if |agg| > 0 {
      assert AddTo(agg, date, minutes)[1..] == agg[1..];
    }
  }

  lemma {:induction false} AddToSum(agg: seq<Bucket>, date: string, minutes: int)
    ensures SumTotals(AddTo(agg, date, minutes)) == SumTotals(agg) + minutes
    decreases |agg|
  {
    if |agg| == 0 {
      assert SumTotals([Bucket(date, minutes)]) == minutes + SumTotals([]);
    } else if agg[0].date != date {
      AddToSum(agg[1..], date, minutes);
      assert AddTo(agg, date, minutes)[1..] == AddTo(agg[1..], date, minutes);
    } else {
      assert AddTo(agg, date, minutes)[1..] == agg[1..];
    }
  }

  lemma {:induction false} LookupBucket(agg: seq<Bucket>, i: int)
    requires Distinct(Dates(agg))
    requires 0 <= i < |agg|
    ensures Lookup(agg, agg[i].date) == agg[i].total
    decreases |agg|
  {
    if i > 0 {
      assert Dates(agg)[0] != Dates(agg)[i];
      assert Dates(agg[1..]) == Dates(agg)[1..];
      LookupBucket(agg[1..], i - 1);
    }
  }

  lemma {:induction false} LookupAbsent(agg: seq<Bucket>, date: string)
    requires date !in Dates(agg)
    ensures Lookup(agg, date) == 0
    decreases |agg|
  {
    if |agg| > 0 {
      assert Dates(agg)[0] == agg[0].date;
      assert Dates(agg[1..]) == Dates(agg)[1..];
      LookupAbsent(agg[1..], date);
    }
  }

  /** The first-appearance list holds each date once, and exactly the dates
      that occur in the history. */
  lemma {:induction false} DistinctDatesCorrect(sessions: seq<Record>)
    ensures Distinct(DistinctDates(sessions))
    ensures forall d :: d in DistinctDates(sessions) <==> exists i :: 0 <= i < |sessions| && sessions[i].date == d
    decreases |sessions|
  {
    if |sessions| > 0 {
      var n := |sessions| - 1;
      var prefix := sessions[..n];
      DistinctDatesCorrect(prefix);
      forall d
        ensures d in DistinctDates(sessions) <==> exists i :: 0 <= i < |sessions| && sessions[i].date == d
      {
        if exists i :: 0 <= i < |sessions| && sessions[i].date == d {
          var i :| 0 <= i < |sessions| && sessions[i].date == d;
          if i < n {
            assert prefix[i].date == d;
          }
        }
        if d in DistinctDates(prefix) {
          var i :| 0 <= i < |prefix| && prefix[i].date == d;
          assert sessions[i].date == d;
        }
      }
    }
  }

  lemma {:induction false} AggregateDates(sessions: seq<Record>)
    ensures Dates(AggregateByDate(sessions)) == DistinctDates(sessions)
    decreases |sessions|
  {
    if |sessions| > 0 {
      var n := |sessions| - 1;
      AggregateDates(sessions[..n]);
      AddToDates(AggregateByDate(sessions[..n]), sessions[n].date, sessions[n].duration);
    }
  }

  lemma {:induction false} AggregateLookup(sessions: seq<Record>, date: string)
    ensures Lookup(AggregateByDate(sessions), date) == TotalForDate(sessions, date)
    decreases |sessions|
  {
    if |sessions| > 0 {
      var n := |sessions| - 1;
      AggregateLookup(sessions[..n], date);
      AddToLookup(AggregateByDate(sessions[..n]), sessions[n].date, sessions[n].duration, date);
    }
  }

  lemma {:induction false} AggregateSum(sessions: seq<Record>)
    ensures SumTotals(AggregateByDate(sessions)) == TotalDuration(sessions)
    decreases |sessions|
  {
    if |sessions| > 0 {
      var n := |sessions| - 1;
      AggregateSum(sessions[..n]);
      AddToSum(AggregateByDate(sessions[..n]), sessions[n].date, sessions[n].duration);
    }
  }

  /** The aggregate's keys are the history's dates in first-appearance order;
      the value under any date is the sum of that date's durations (0 when it
      does not occur); and the values add up to the total of all durations. */
  lemma AggregateByDateCorrect(sessions: seq<Record>)
    ensures Dates(AggregateByDate(sessions)) == DistinctDates(sessions)
    ensures forall d :: Lookup(AggregateByDate(sessions), d) == TotalForDate(sessions, d)
    ensures SumTotals(AggregateByDate(sessions)) == TotalDuration(sessions)
  {
    AggregateDates(sessions);
    AggregateSum(sessions);
    forall d
      ensures Lookup(AggregateByDate(sessions), d) == TotalForDate(sessions, d)
    {
      AggregateLookup(sessions, d);
    }
  }

  /** Every bar of the aggregate carries the sum of its own date's durations. */
  lemma AggregateBuckets(sessions: seq<Record>)
    ensures var agg := AggregateByDate(sessions);
      forall i :: 0 <= i < |agg| ==> agg[i].total == TotalForDate(sessions, agg[i].date)
  {
    var agg := AggregateByDate(sessions);
    AggregateByDateCorrect(sessions);
    DistinctDatesCorrect(sessions);
    forall i | 0 <= i < |agg|
      ensures agg[i].total == TotalForDate(sessions, agg[i].date)
    {
      LookupBucket(agg, i);
    }
  }

  /** The today-total shown beside the history agrees with the aggregate: it is
      the value of today's bucket, and 0 when no record is dated today. */
  lemma TodayTotalMatchesAggregate(sessions: seq<Record>, today: string)
    ensures var agg := AggregateByDate(sessions);
      && (today !in Dates(agg) ==> TotalForDate(sessions, today) == 0)
      && (forall i :: 0 <= i < |agg| && agg[i].date == today ==> agg[i].total == TotalForDate(sessions, today))
  {
    var agg := AggregateByDate(sessions);
    AggregateByDateCorrect(sessions);
    AggregateBuckets(sessions);
    if today !in Dates(agg) {
      LookupAbsent(agg, today);
    }
  }

  /** The label/value derivation of `updateChart`: one bar per date in first
      appearance order with that date's total, or a single "No Data" bar of 0
      for an empty history. */
  function ChartSeries(sessions: seq<Record>): (r: Series)
    ensures |r.labels| == |r.values| >= 1
    ensures |sessions| == 0 ==> r.labels == ["No Data"] && r.values == [0]
    ensures |sessions| > 0 ==> r.labels == DistinctDates(sessions)
    ensures |sessions| > 0 ==> forall i :: 0 <= i < |r.values| ==> r.values[i] == TotalForDate(sessions, r.labels[i])
  {
    var agg := AggregateByDate(sessions);
    AggregateByDateCorrect(sessions);
    AggregateBuckets(sessions);
    DistinctDatesCorrect(sessions);
    assert |sessions| > 0 ==> sessions[0].date in DistinctDates(sessions);
    if |agg| == 0 then Series(["No Data"], [0]) else Series(Dates(agg), Totals(agg))
  }

  /** The worked example: two records on "1/1" (5 and 10 minutes) and one on
      "1/2" (3 minutes) aggregate to 15 and 3, in that order. */
  lemma AggregateExample()
    ensures AggregateByDate([Record("1/1", "a", 5), Record("1/1", "b", 10), Record("1/2", "c", 3)])
         == [Bucket("1/1", 15), Bucket("1/2", 3)]
  {
    var h := [Record("1/1", "a", 5), Record("1/1", "b", 10), Record("1/2", "c", 3)];
    assert h[..2][..1] == [h[0]];
    assert h[..1][..0] == [];
    assert AggregateByDate(h[..1]) == [Bucket("1/1", 5)];
    assert AggregateByDate(h[..2]) == [Bucket("1/1", 15)];
    assert "1/1" != "1/2" by { assert "1/1"[2] != "1/2"[2]; }
    assert [Bucket("1/1", 15)][1..] == [];
    assert AddTo([Bucket("1/1", 15)], "1/2", 3) == [Bucket("1/1", 15)] + [Bucket("1/2", 3)];
  }
}

=== FILE: clock.dfy ===
/** The `M:SS` rendering of the remaining seconds shown on the timer face
    (script.js, `formatClock`), together with a decimal reader that inverts it:
    reading the rendered text back yields the seconds. */
module Clock {

  import opened Options

  predicate IsDigit(c: char) {
    '0' <= c <= '9'
  }

  predicate AllDigits(s: string) {
    forall i :: 0 <= i < |s| ==> IsDigit(s[i])
  }

  function DigitChar(d: int): (c: char)
    requires 0 <= d < 10
    ensures IsDigit(c)
  {
    (('0' as int) + d) as char
  }

  function DigitValue(c: char): (d: int)
    requires IsDigit(c)
    ensures 0 <= d < 10
  {
    c as int - '0' as int
  }

  /** Decimal text of a non-negative integer: no sign and no leading zeros, as
      a JavaScript template literal writes the magnitudes a clock face shows
      (below 10^21, where it would switch to exponent notation). */
  function NatToString(n: nat): (r: string)
    ensures |r| >= 1 && AllDigits(r)
    ensures (r[0] == '0') <==> n == 0
    ensures |r| == 1 <==> n < 10
    decreases n
  {
    if n < 10 then [DigitChar(n)] else NatToString(n / 10) + [DigitChar(n % 10)]
  }

  /** Text of any integer: a minus sign in front of the magnitude when negative. */
  function IntToString(i: int): string {
    if i < 0 then "-" + NatToString(-i) else NatToString(i)
  }

  /** Value of a string of decimal digits (the reading direction). */
  function ParseNat(s: string): nat
    requires AllDigits(s)
  {
    if |s| == 0 then 0 else ParseNat(s[..|s| - 1]) * 10 + DigitValue(s[|s| - 1])
  }

  lemma {:induction false} ParseNatToString(n: nat)
    ensures ParseNat(NatToString(n)) == n
    decreases n
  {
    if n >= 10 {
      var p := NatToString(n / 10);
      var s := p + [DigitChar(n % 10)];
      assert s[..|s| - 1] == p;
      ParseNatToString(n / 10);
    }
  }

  /** JavaScript's `%`: the remainder takes the sign of the dividend. */
  function JsRem(a: int, b: int): int
    requires b > 0
  {
    if a >= 0 then a % b else -((-a) % b)
  }

  /** `formatClock(seconds)`: whole minutes (rounded down), a colon, then the
      remaining seconds padded with a single `0` when they are below ten. */
  function FormatClock(seconds: int): (r: string)
    ensures seconds >= 0 ==> |r| >= 4 && r[|r| - 3] == ':'
  {
    // Dafny's `/` by a positive divisor rounds down, as `Math.floor` does.
    var m := seconds / 60;
    var s := JsRem(seconds, 60);
    IntToString(m) + ":" + (if s < 10 then "0" else "") + IntToString(s)
  }

  /** Reads `M:SS` text back into seconds; `None` for anything else. */
  function ParseClock(s: string): Option<int> {
    if |s| >= 4 && s[|s| - 3] == ':' && AllDigits(s[..|s| - 3]) && AllDigits(s[|s| - 2..]) then
      Some(ParseNat(s[..|s| - 3]) * 60 + ParseNat(s[|s| - 2..]))
    else
      None
  }

  /** For every non-negative number of seconds the face shows canonical minutes
      (no leading zeros), a colon and exactly two second digits below 60, and
      minutes * 60 + seconds gives back the input. */
  lemma {:induction false} FormatClockMeaning(seconds: int)
    requires seconds >= 0
    ensures var r := FormatClock(seconds);
      && |r| >= 4 && r[|r| - 3] == ':'
      && AllDigits(r[..|r| - 3]) && AllDigits(r[|r| - 2..])
      && r[..|r| - 3] == NatToString(ParseNat(r[..|r| - 3]))
      && ParseNat(r[|r| - 2..]) < 60
      && ParseNat(r[..|r| - 3]) * 60 + ParseNat(r[|r| - 2..]) == seconds
  {
    var r := FormatClock(seconds);
    var m := seconds / 60;
    var s := seconds % 60;
    var mm := NatToString(m);
    var ss := (if s < 10 then "0" else "") + NatToString(s);
    assert r == mm + ":" + ss;
    assert |ss| == 2;
    assert r[..|r| - 3] == mm;
    assert r[|r| - 2..] == ss;
    ParseNatToString(m);
    ParseNatToString(s);
    if s < 10 {
      assert ss[..1] == "0";
      assert ParseNat(ss[..1]) == 0 by {
        assert ss[..1][..0] == [];
      }
      assert ParseNat(ss) == DigitValue(ss[1]);
      assert NatToString(s) == [ss[1]];
    } else {
      assert ss == NatToString(s);
    }
  }

  /** Reading the clock face back yields the seconds it was rendered from. */
  lemma FormatClockRoundTrip(seconds: int)
    requires seconds >= 0
    ensures ParseClock(FormatClock(seconds)) == Some(seconds)
  {
    FormatClockMeaning(seconds);
  }

  /** Below zero the program's arithmetic shows a garbled face: one second
      past zero reads `-1:0-1`. */
  lemma FormatClockNegativeExample()
    ensures FormatClock(-1) == "-1:0-1"
  {
  }
}

=== FILE: controller.dfy ===
/** The page's event wiring (script.js, button handlers and timers) as a
    sequence of events applied to the application state: interval ticks,
    button clicks, the delayed auto-start, and the two deletions. */
module Controller {

  import opened Options
  import opened History
  import opened Session
  import opened Timer

  datatype Event =
    | TickFired(now: int, date: string, time: string)
    | StartClicked(now: int)
    | PauseClicked
    | ResetClicked
    | AutoStartFired(now: int)
    | DeleteEntryClicked(position: int, confirmed: bool)
    | DeleteAllClicked(confirmed: bool)

  /** One event. A tick arrives only while an interval is live; the other
      events go straight to their handler. */
  function Step(cfg: Config, a: AppState, e: Event): AppState {
    match e
    case TickFired(now, date, time) => if a.timer.liveIntervals > 0 then Tick(cfg, a, now, date, time) else a
    case StartClicked(now) => a.(timer := Start(a.timer, now))
    case PauseClicked => a.(timer := Pause(a.timer))
    case ResetClicked => a.(timer := Reset(cfg, a.timer))
    case AutoStartFired(now) => a.(timer := AutoStart(a.timer, now))
    case DeleteEntryClicked(position, confirmed) => a.(sessions := DeleteDisplayed(a.sessions, position, confirmed))
    case DeleteAllClicked(confirmed) => a.(sessions := DeleteAll(a.sessions, confirmed))
  }

  function Run(cfg: Config, a: AppState, events: seq<Event>): AppState
    decreases |events|
  {
    if |events| == 0 then a else Run(cfg, Step(cfg, a, events[0]), events[1..])
  }

  /** `n` consecutive interval ticks at the same instant. */
  function Ticks(n: nat, now: int, date: string, time: string): (r: seq<Event>)
    ensures |r| == n
  {
    seq(n, _ => TickFired(now, date, time))
  }

  lemma {:induction false} RunAppend(cfg: Config, a: AppState, xs: seq<Event>, ys: seq<Event>)
    ensures Run(cfg, a, xs + ys) == Run(cfg, Run(cfg, a, xs), ys)
    decreases |xs|
  {
    if |xs| > 0 {
      assert (xs + ys)[0] == xs[0];
      assert (xs + ys)[1..] == xs[1..] + ys;
      RunAppend(cfg, Step(cfg, a, xs[0]), xs[1..], ys);
    } else {
      assert xs + ys == ys;
    }
  }

  /** Every event keeps the timer invariant. */
  lemma StepPreservesValid(cfg: Config, a: AppState, e: Event)
    requires ValidConfig(cfg) && Valid(cfg, a.timer)
    ensures Valid(cfg, Step(cfg, a, e).timer)
  {
  }

  /** Any sequence of events keeps the timer invariant. */
  lemma {:induction false} RunPreservesValid(cfg: Config, a: AppState, events: seq<Event>)
    requires ValidConfig(cfg) && Valid(cfg, a.timer)
    ensures Valid(cfg, Run(cfg, a, events).timer)
    decreases |events|
  {
    if |events| > 0 {
      StepPreservesValid(cfg, a, events[0]);
      RunPreservesValid(cfg, Step(cfg, a, events[0]), events[1..]);
    }
  }

  /** The interval discipline alone, which needs no assumption about the
      configured lengths: the handle is set exactly while running, and names
      the one live interval. */
  predicate HandleDiscipline(t: TimerState) {
    t.handle == t.running && t.liveIntervals == (if t.handle then 1 else 0)
  }

  lemma StepKeepsHandleDiscipline(cfg: Config, a: AppState, e: Event)
    requires HandleDiscipline(a.timer)
    ensures HandleDiscipline(Step(cfg, a, e).timer)
  {
  }

  lemma {:induction false} RunKeepsHandleDiscipline(cfg: Config, a: AppState, events: seq<Event>)
    requires HandleDiscipline(a.timer)
    ensures HandleDiscipline(Run(cfg, a, events).timer)
    decreases |events|
  {
    if |events| > 0 {
      StepKeepsHandleDiscipline(cfg, a, events[0]);
      RunKeepsHandleDiscipline(cfg, Step(cfg, a, events[0]), events[1..]);
    }
  }

  /** From page load, for every configuration (including phase lengths that
      round to 0 seconds), whatever the user clicks and whenever the timers
      fire, at most one interval is ever live, and one is live exactly while
      the timer runs. */
  lemma AtMostOneInterval(cfg: Config, stored: seq<Record>, events: seq<Event>)
    ensures var r := Run(cfg, AppState(Initial(cfg), stored), events);
      && r.timer.liveIntervals <= 1
      && (r.timer.liveIntervals == 1 <==> r.timer.running)
  {
    RunKeepsHandleDiscipline(cfg, AppState(Initial(cfg), stored), events);
  }

  /** From page load, with phase lengths of at least one second, the countdown
      stays within 1 .. the current phase length after any events. */
  lemma CountdownInBounds(cfg: Config, stored: seq<Record>, events: seq<Event>)
    requires ValidConfig(cfg)
    ensures var r := Run(cfg, AppState(Initial(cfg), stored), events);
      1 <= r.timer.timeLeft <= PhaseLength(cfg, r.timer.study)
  {
    RunPreservesValid(cfg, AppState(Initial(cfg), stored), events);
  }

  /** The buttons and the auto-start never touch the history. */
  lemma ControlsKeepHistory(cfg: Config, a: AppState, e: Event)
    requires e.StartClicked? || e.PauseClicked? || e.ResetClicked? || e.AutoStartFired?
    ensures Step(cfg, a, e).sessions == a.sessions
  {
  }

  /** While time remains, `k` ticks of a running timer only count down by `k`. */
  lemma {:induction false} CountdownBeforeEnd(cfg: Config, a: AppState, k: nat, now: int, date: string, time: string)
    requires ValidConfig(cfg) && Valid(cfg, a.timer) && a.timer.running
    requires k < a.timer.timeLeft
    ensures Run(cfg, a, Ticks(k, now, date, time)) == a.(timer := a.timer.(timeLeft := a.timer.timeLeft - k))
    decreases k
  {
    if k > 0 {
      var b := Step(cfg, a, TickFired(now, date, time));
      assert b == a.(timer := a.timer.(timeLeft := a.timer.timeLeft - 1));
      assert Ticks(k, now, date, time)[1..] == Ticks(k - 1, now, date, time);
      CountdownBeforeEnd(cfg, b, k - 1, now, date, time);
    } else {
      assert a.(timer := a.timer.(timeLeft := a.timer.timeLeft - 0)) == a;
    }
  }

  /** A running phase with `n` seconds left ends on exactly the `n`-th tick:
      one phase flip, one pending auto-start, and one new record exactly when
      the phase was a study phase. Further ticks change nothing until the
      timer is started again. */
  lemma PhaseCompletes(cfg: Config, a: AppState, now: int, date: string, time: string)
    requires ValidConfig(cfg) && Valid(cfg, a.timer) && a.timer.running
    ensures var r := Run(cfg, a, Ticks(a.timer.timeLeft, now, date, time));
      && r.timer.study == !a.timer.study
      && !r.timer.running
      && r.timer.timeLeft == PhaseLength(cfg, r.timer.study)
      && r.timer.pendingAutoStarts == a.timer.pendingAutoStarts + 1
      && |r.sessions| == |a.sessions| + (if a.timer.study then 1 else 0)
      && r.sessions[..|a.sessions|] == a.sessions
      && Run(cfg, a, Ticks(a.timer.timeLeft + 1, now, date, time)) == r
  {
    var n := a.timer.timeLeft;
    var tick := TickFired(now, date, time);
    assert Ticks(n, now, date, time) == Ticks(n - 1, now, date, time) + [tick];
    assert Ticks(n + 1, now, date, time) == Ticks(n, now, date, time) + [tick];
    CountdownBeforeEnd(cfg, a, n - 1, now, date, time);
    var b := Run(cfg, a, Ticks(n - 1, now, date, time));
    RunAppend(cfg, a, Ticks(n - 1, now, date, time), [tick]);
    var r := Step(cfg, b, tick);
    assert Run(cfg, b, [tick]) == r;
    RunAppend(cfg, a, Ticks(n, now, date, time), [tick]);
    assert Run(cfg, r, [tick]) == Step(cfg, r, tick);
  }

  /** Resetting while an auto-start is pending does not stop it: the delayed
      start still fires and the timer runs again, in a fresh study phase. */
  lemma ResetDoesNotCancelAutoStart(cfg: Config, a: AppState, now: int)
    requires a.timer.pendingAutoStarts > 0
    ensures var r := Run(cfg, a, [ResetClicked, AutoStartFired(now)]);
      && r.timer.running && r.timer.study && r.timer.timeLeft == cfg.studyTime
      && r.timer.sessionStart == Some(now)
  {
    var b := Step(cfg, a, ResetClicked);
    assert [ResetClicked, AutoStartFired(now)][1..] == [AutoStartFired(now)];
    assert Run(cfg, a, [ResetClicked, AutoStartFired(now)]) == Run(cfg, b, [AutoStartFired(now)]);
    assert Run(cfg, b, [AutoStartFired(now)]) == Step(cfg, b, AutoStartFired(now));
  }

  /** Pausing while an auto-start is pending does not stop it either. */
  lemma PauseDoesNotCancelAutoStart(cfg: Config, a: AppState, now: int)
    requires a.timer.pendingAutoStarts > 0
    ensures Run(cfg, a, [PauseClicked, AutoStartFired(now)]).timer.running
  {
    var b := Step(cfg, a, PauseClicked);
    assert [PauseClicked, AutoStartFired(now)][1..] == [AutoStartFired(now)];
    assert Run(cfg, a, [PauseClicked, AutoStartFired(now)]) == Run(cfg, b, [AutoStartFired(now)]);
    assert Run(cfg, b, [AutoStartFired(now)]) == Step(cfg, b, AutoStartFired(now));
  }

  /** Pausing a stamped study session and resuming later keeps the original
      stamp, so the paused time counts towards the saved minutes. */
  lemma ResumeKeepsStamp(t: TimerState, later: int)
    requires t.running && t.study && Stamped(t.sessionStart)
    ensures Start(Pause(t), later).sessionStart == t.sessionStart
    ensures Start(Pause(t), later).running
  {
  }

  /** The end-to-end run with one-second phases. The program derives both the
      phase length and the fallback minutes from one constant, so one-second
      phases come with a fallback of `Math.round(1/60) == 0` minutes. Start at
      1000 ms; the tick at 2000 ms ends the study phase and saves one record of
      the fallback's 0 minutes (the elapsed second also rounds to 0); the
      auto-start at 3000 ms runs the break phase. */
  lemma EndToEndExample()
    ensures var cfg := Config(1, 1, 0);
      var r := Run(cfg, AppState(Initial(cfg), []),
        [StartClicked(1000), TickFired(2000, "1/1", "9:00"), AutoStartFired(3000)]);
      && r.sessions == [Record("1/1", "9:00", 0)]
      && r.timer.running && !r.timer.study && r.timer.timeLeft == 1
  {
  }
}

=== FILE: history.dfy ===
/** The stored study history (script.js, `sessions`): completed study sessions
    in the order they were recorded, the newest-first view the history list
    shows, single and bulk deletion, and the per-date minute totals. */
module History {

  /** One completed study session: opaque locale date and time strings and a
      whole number of minutes. */
  datatype Record = Record(date: string, time: string, duration: int)

  /** `saveSession`: the new record goes at the end; nothing before it moves. */
  function AppendSession(sessions: seq<Record>, date: string, time: string, minutes: int): (r: seq<Record>)
    ensures |r| == |sessions| + 1
    ensures r[..|sessions|] == sessions
    ensures r[|sessions|] == Record(date, time, minutes)
  {
    sessions + [Record(date, time, minutes)]
  }

  /** `[...sessions].reverse()`: the newest-first view, built by taking the
      last element first. */
  function Reverse<T>(s: seq<T>): (r: seq<T>)
    ensures |r| == |s|
  {
    if |s| == 0 then [] else [s[|s| - 1]] + Reverse(s[..|s| - 1])
  }

  /** The `position`-th entry of the newest-first view is the record
      `position` places from the end of the history. */
  lemma {:induction false} ReverseIndex<T>(s: seq<T>, position: int)
    requires 0 <= position < |s|
    ensures Reverse(s)[position] == s[|s| - 1 - position]
    decreases |s|
  {
    if position > 0 {
      var n := |s| - 1;
      assert Reverse(s)[position] == Reverse(s[..n])[position - 1];
      ReverseIndex(s[..n], position - 1);
    }
  }

  /** The original position of the entry shown at `position` in the
      newest-first view (`sessions.length - 1 - revIndex`). */
  function OriginalIndex<T>(sessions: seq<T>, position: int): (i: int)
    ensures 0 <= position < |sessions| ==> 0 <= i < |sessions| && Reverse(sessions)[position] == sessions[i]
  {
    var i := |sessions| - 1 - position;
    if 0 <= position < |sessions| then ReverseIndex(sessions, position); i else i
  }

  /** Where `Array.prototype.splice` starts: a negative start counts from the
      end (clamped at 0), a start past the end is clamped to the length. */
  function SpliceStart(len: nat, start: int): (k: nat)
    ensures k <= len
    ensures 0 <= start <= len ==> k == start
  {
    if start < 0 then (if len + start < 0 then 0 else len + start)
    else if start < len then start else len
  }

  /** `splice(start, 1)`: removes the one element at the resolved start, if any. */
  function Splice1<T>(s: seq<T>, start: int): (r: seq<T>)
    ensures 0 <= start < |s| ==>
      && |r| == |s| - 1
      && (forall i :: 0 <= i < start ==> r[i] == s[i])
      && (forall i :: start <= i < |r| ==> r[i] == s[i + 1])
    ensures start >= |s| ==> r == s
    // A negative start counts back from the end, clamped at the first element.
    ensures start < 0 && |s| > 0 ==>
      var k := if |s| + start < 0 then 0 else |s| + start;
      && |r| == |s| - 1
      && (forall i :: 0 <= i < k ==> r[i] == s[i])
      && (forall i :: k <= i < |r| ==> r[i] == s[i + 1])
  {
    var k := SpliceStart(|s|, start);
    if k < |s| then s[..k] + s[k + 1..] else s
  }

  /** The delete button of the entry shown at newest-first `position`; a
      declined confirmation leaves the history as it is. */
  function DeleteDisplayed(sessions: seq<Record>, position: int, confirmed: bool): (r: seq<Record>)
    ensures !confirmed ==> r == sessions
    ensures confirmed && 0 <= position < |sessions| ==>
      var i := |sessions| - 1 - position;
      && |r| == |sessions| - 1
      && r == sessions[..i] + sessions[i + 1..]
  {
    if confirmed then Splice1(sessions, OriginalIndex(sessions, position)) else sessions
  }

  /** Positions outside the shown list, which no rendered button sends: a
      negative one resolves past the end and deletes nothing; one at or beyond
      the length counts back from the end, deleting the record shown at
      `position - |sessions|`, or the oldest record once that runs out. */
  lemma DeleteDisplayedOutOfRange(sessions: seq<Record>, position: int)
    ensures position < 0 ==> DeleteDisplayed(sessions, position, true) == sessions
    ensures |sessions| <= position < 2 * |sessions| ==>
      var k := 2 * |sessions| - 1 - position;
      DeleteDisplayed(sessions, position, true) == sessions[..k] + sessions[k + 1..]
    ensures 0 < |sessions| && 2 * |sessions| <= position ==>
      DeleteDisplayed(sessions, position, true) == sessions[1..]
  {
  }

  /** Deleting the entry shown at `position` removes exactly that entry: the
      newest-first view loses its `position`-th element and nothing else, and
      the history keeps every other record once. */
  lemma {:induction false} DeleteDisplayedRemovesShownEntry(sessions: seq<Record>, position: int)
    requires 0 <= position < |sessions|
    ensures var r := DeleteDisplayed(sessions, position, true);
      && Reverse(r) == Reverse(sessions)[..position] + Reverse(sessions)[position + 1..]
      && multiset(r) + multiset{Reverse(sessions)[position]} == multiset(sessions)
  {
    var i := |sessions| - 1 - position;
    assert DeleteDisplayed(sessions, position, true) == sessions[..i] + sessions[i + 1..];
    ReverseRemove(sessions, i);
    RemoveOneMultiset(sessions, i);
  }

  lemma {:induction false} ReverseRemove<T>(s: seq<T>, i: int)
    requires 0 <= i < |s|
    ensures var p := |s| - 1 - i;
      Reverse(s[..i] + s[i + 1..]) == Reverse(s)[..p] + Reverse(s)[p + 1..]
  {
    var p := |s| - 1 - i;
    var rr := Reverse(s[..i] + s[i + 1..]);
    var v := Reverse(s)[..p] + Reverse(s)[p + 1..];
    forall j | 0 <= j < |v|
      ensures rr[j] == v[j]
    {
      ReverseRemoveAt(s, i, j);
    }
  }

  lemma {:induction false} ReverseRemoveAt<T>(s: seq<T>, i: int, j: int)
    requires 0 <= i < |s| && 0 <= j < |s| - 1
    ensures var p := |s| - 1 - i;
      Reverse(s[..i] + s[i + 1..])[j] == (Reverse(s)[..p] + Reverse(s)[p + 1..])[j]
  {
    var p := |s| - 1 - i;
    var r := s[..i] + s[i + 1..];
    var rs := Reverse(s);
    var k := |s| - 2 - j;
    assert |r| == |s| - 1;
    ReverseIndex(r, j);
    assert Reverse(r)[j] == r[k];
    if j < p {
      ReverseIndex(s, j);
      RemovedAt(s, i, k);
      assert (rs[..p] + rs[p + 1..])[j] == rs[j];
    } else {
      ReverseIndex(s, j + 1);
      RemovedAt(s, i, k);
      assert (rs[..p] + rs[p + 1..])[j] == rs[j + 1];
    }
  }

  lemma RemovedAt<T>(s: seq<T>, i: int, k: int)
    requires 0 <= i < |s| && 0 <= k < |s| - 1
    ensures (s[..i] + s[i + 1..])[k] == if k < i then s[k] else s[k + 1]
  {
  }

  lemma RemoveOneMultiset<T>(s: seq<T>, i: int)
    requires 0 <= i < |s|
    ensures multiset(s[..i] + s[i + 1..]) + multiset{s[i]} == multiset(s)
  {
    assert s == s[..i] + [s[i]] + s[i + 1..];
  }

  /** The delete-all button; declined, nothing changes. */
  function DeleteAll(sessions: seq<Record>, confirmed: bool): (r: seq<Record>)
    ensures confirmed ==> |r| == 0
    ensures !confirmed ==> r == sessions
  {
    if confirmed then [] else sessions
  }

  /** Reference definition: the minutes of every record dated `date`. */
  function TotalForDate(sessions: seq<Record>, date: string): int {
    if |sessions| == 0 then 0
    else
      var last := sessions[|sessions| - 1];
      TotalForDate(sessions[..|sessions| - 1], date) + (if last.date == date then last.duration else 0)
  }

  /** Reference definition: the minutes of every record. */
  function TotalDuration(sessions: seq<Record>): int {
    if |sessions| == 0 then 0 else TotalDuration(sessions[..|sessions| - 1]) + sessions[|sessions| - 1].duration
  }

  /** The today-total loop of `updateHistory`: it walks the newest-first view
      and adds the minutes of each record whose date string is `today`. */
  method TodayTotal(sessions: seq<Record>, today: string) returns (total: int)
    ensures total == TotalForDate(sessions, today)
  {
    total := 0;
    var revIndex := 0;
    assert sessions[..|sessions|] == sessions;
    while revIndex < |sessions|
      invariant 0 <= revIndex <= |sessions|
      invariant total + TotalForDate(sessions[..|sessions| - revIndex], today) == TotalForDate(sessions, today)
    {
      var m := |sessions| - revIndex;
      assert sessions[..m][..m - 1] == sessions[..m - 1];
      var s := sessions[m - 1];
      if s.date == today {
        total := total + s.duration;
      }
      revIndex := revIndex + 1;
    }
  }
}

=== FILE: options.dfy ===
/** The optional value used for the timer's session-start timestamp, which the
    program keeps as a number or `null`. */
module Options {

  datatype Option<+T> = None | Some(value: T)
}

=== FILE: session.dfy ===
/** Reconciling a finished study phase's duration (script.js, inside `tick`):
    the wall-clock minutes since the session-start stamp, rounded, or the
    configured study minutes when there is no stamp or the rounded value is
    not positive. */
module Session {

  import opened Options

  const MsPerMinute := 60000

  /** `Math.round(ms / 60000)`: the nearest whole minute, halves rounded up
      (towards +infinity), for any integer number of milliseconds. */
  function RoundMinutes(ms: int): (r: int)
    ensures MsPerMinute * r - MsPerMinute / 2 <= ms < MsPerMinute * r + MsPerMinute / 2
  {
    (ms + MsPerMinute / 2) / MsPerMinute
  }

  /** JavaScript truthiness of `sessionStartTime`: `null` and the timestamp 0
      both count as "no stamp". */
  predicate Stamped(stamp: Option<int>) {
    stamp.Some? && stamp.value != 0
  }

  /** The minutes saved for a study session completed at `now`. */
  function SessionMinutes(stamp: Option<int>, now: int, fallback: int): (r: int)
    ensures !Stamped(stamp) ==> r == fallback
    ensures Stamped(stamp) && now - stamp.value < MsPerMinute / 2 ==> r == fallback
    ensures Stamped(stamp) && now - stamp.value >= MsPerMinute / 2 ==>
      && r >= 1
      && MsPerMinute * r - MsPerMinute / 2 <= now - stamp.value < MsPerMinute * r + MsPerMinute / 2
  {
    if Stamped(stamp) && RoundMinutes(now - stamp.value) > 0 then RoundMinutes(now - stamp.value) else fallback
  }

  /** A saved session is never 0 minutes long unless the configured study
      minutes are themselves not positive. */
  lemma SessionMinutesPositive(stamp: Option<int>, now: int, fallback: int)
    requires fallback >= 1
    ensures SessionMinutes(stamp, now, fallback) >= 1
  {
  }

  /** The worked examples: 130 seconds since the stamp give 2 minutes; no
      stamp gives the configured minutes. */
  lemma SessionMinutesExamples(now: int, fallback: int)
    requires now != 130000
    ensures SessionMinutes(Some(now - 130000), now, fallback) == 2
    ensures SessionMinutes(None, now, fallback) == fallback
  {
  }
}

=== FILE: timer.dfy ===
/** The study/break phase timer (script.js, `tick`, `startTimer`,
    `pauseTimer`, `resetTimer`) as an immutable state and pure transitions.
    The wall clock, the date and the time of day are parameters; the interval
    returned by `setInterval` is the `handle` flag, with `liveIntervals`
    counting the intervals actually scheduled; the one-second `setTimeout`
    that restarts the timer after a phase ends is a pending auto-start. */
module Timer {

  import opened Options
  import opened History
  import opened Session

  /** Phase lengths in whole seconds and the configured study minutes used
      when the elapsed time cannot be used. */
  datatype Config = Config(studyTime: int, breakTime: int, studyMinutes: int)

  datatype TimerState = TimerState(
    timeLeft: int,
    running: bool,
    study: bool,
    sessionStart: Option<int>,
    handle: bool,
    liveIntervals: nat,
    pendingAutoStarts: nat)

  /** The timer together with the recorded history, which a finished study
      phase appends to. */
  datatype AppState = AppState(timer: TimerState, sessions: seq<Record>)

  function PhaseLength(cfg: Config, study: bool): int {
    if study then cfg.studyTime else cfg.breakTime
  }

  predicate ValidConfig(cfg: Config) {
    cfg.studyTime >= 1 && cfg.breakTime >= 1
  }

  /** What holds of the timer between events: the countdown stays within the
      current phase, the handle is set exactly while running and names the one
      live interval, a running study phase carries a start stamp, and a break
      phase carries none. */
  predicate Valid(cfg: Config, t: TimerState) {
    && 1 <= t.timeLeft <= PhaseLength(cfg, t.study)
    && t.handle == t.running
    && t.liveIntervals == (if t.handle then 1 else 0)
    && (t.running && t.study ==> t.sessionStart.Some?)
    && (!t.study ==> t.sessionStart.None?)
  }

  /** The state at page load: a study phase of full length, stopped. */
  function Initial(cfg: Config): (t: TimerState)
    ensures ValidConfig(cfg) ==> Valid(cfg, t)
    ensures t.study && !t.running && t.timeLeft == cfg.studyTime
    ensures t.sessionStart == None && !t.handle && t.liveIntervals == 0 && t.pendingAutoStarts == 0
  {
    TimerState(cfg.studyTime, false, true, None, false, 0, 0)
  }

  /** `clearInterval(timerInterval); timerInterval = null`. */
  function ClearHandle(t: TimerState): (r: TimerState)
    ensures !r.handle
    ensures t.handle && t.liveIntervals > 0 ==> r.liveIntervals == t.liveIntervals - 1
    ensures !t.handle ==> r == t
  {
    t.(handle := false, liveIntervals := if t.handle && t.liveIntervals > 0 then t.liveIntervals - 1 else t.liveIntervals)
  }

  /** `startTimer()` at wall-clock time `now`. */
  function Start(t: TimerState, now: int): (r: TimerState)
    ensures t.running ==> r == t
    ensures !t.running ==> r.running && r.handle
    ensures !t.running ==>
      && r.timeLeft == t.timeLeft && r.study == t.study && r.pendingAutoStarts == t.pendingAutoStarts
    // The stamp is taken only in a study phase that has none; an existing
    // stamp survives, so resuming after a pause keeps the original one.
    ensures !t.running && t.study && !Stamped(t.sessionStart) ==> r.sessionStart == Some(now)
    ensures Stamped(t.sessionStart) || !t.study ==> r.sessionStart == t.sessionStart
    // The safeguard replaces the interval a stale handle names instead of adding one.
    ensures !t.running && !t.handle ==> r.liveIntervals == t.liveIntervals + 1
    ensures !t.running && t.handle && t.liveIntervals > 0 ==> r.liveIntervals == t.liveIntervals
  {
    if t.running then t
    else
      var stamped := if t.study && !Stamped(t.sessionStart) then t.(sessionStart := Some(now)) else t;
      var cleared := ClearHandle(stamped.(running := true));
      cleared.(handle := true, liveIntervals := cleared.liveIntervals + 1)
  }

  /** `pauseTimer()`. */
  function Pause(t: TimerState): (r: TimerState)
    ensures !t.running ==> r == t
    ensures t.running ==> !r.running && !r.handle
    ensures t.running ==>
      && r.timeLeft == t.timeLeft && r.study == t.study && r.sessionStart == t.sessionStart
      && r.pendingAutoStarts == t.pendingAutoStarts
    ensures t.running && t.handle && t.liveIntervals > 0 ==> r.liveIntervals == t.liveIntervals - 1
  {
    if !t.running then t else ClearHandle(t).(running := false)
  }

  /** `resetTimer()`: back to a full, stopped study phase without a stamp.
      A pending auto-start is not cancelled. */
  function Reset(cfg: Config, t: TimerState): (r: TimerState)
    ensures r.study && r.timeLeft == cfg.studyTime && !r.running && !r.handle && r.sessionStart == None
    ensures r.pendingAutoStarts == t.pendingAutoStarts
    ensures Valid(cfg, t) ==> r == Initial(cfg).(pendingAutoStarts := t.pendingAutoStarts)
  {
    ClearHandle(t).(running := false, study := true, timeLeft := cfg.studyTime, sessionStart := None)
  }

  /** The delayed `startTimer()` scheduled when a phase ends; nothing happens
      when none is pending. */
  function AutoStart(t: TimerState, now: int): (r: TimerState)
    ensures t.pendingAutoStarts == 0 ==> r == t
    ensures t.pendingAutoStarts > 0 ==> r.pendingAutoStarts == t.pendingAutoStarts - 1
    ensures t.pendingAutoStarts > 0 ==> r.running && r.study == t.study && r.timeLeft == t.timeLeft
  {
    if t.pendingAutoStarts == 0 then t
    else Start(t.(pendingAutoStarts := t.pendingAutoStarts - 1), now)
  }

  /** One `tick()` at wall-clock time `now`, with the locale `date` and `time`
      strings a saved record would carry. */
  function Tick(cfg: Config, a: AppState, now: int, date: string, time: string): (r: AppState)
    // Still counting: one second less and nothing else changes.
    ensures a.timer.timeLeft - 1 > 0 ==> r == a.(timer := a.timer.(timeLeft := a.timer.timeLeft - 1))
    // Phase over: stopped, interval cleared, phase flipped, full length of the
    // new phase, one more pending auto-start.
    ensures a.timer.timeLeft - 1 <= 0 ==>
      && !r.timer.running && !r.timer.handle
      && r.timer.study == !a.timer.study
      && r.timer.timeLeft == PhaseLength(cfg, r.timer.study)
      && r.timer.pendingAutoStarts == a.timer.pendingAutoStarts + 1
      && (a.timer.handle && a.timer.liveIntervals > 0 ==> r.timer.liveIntervals == a.timer.liveIntervals - 1)
    // A finished study phase appends exactly one record and clears the stamp.
    ensures a.timer.timeLeft - 1 <= 0 && a.timer.study ==>
      && |r.sessions| == |a.sessions| + 1
      && r.sessions[..|a.sessions|] == a.sessions
      && r.sessions[|a.sessions|] == Record(date, time, SessionMinutes(a.timer.sessionStart, now, cfg.studyMinutes))
      && r.timer.sessionStart == None
    // A finished break phase records nothing.
    ensures a.timer.timeLeft - 1 <= 0 && !a.timer.study ==>
      r.sessions == a.sessions && r.timer.sessionStart == a.timer.sessionStart
  {
    var t := a.timer.(timeLeft := a.timer.timeLeft - 1);
    if t.timeLeft > 0 then a.(timer := t)
    else
      var stopped := ClearHandle(t).(running := false);
      var sessions :=
        if t.study then AppendSession(a.sessions, date, time, SessionMinutes(t.sessionStart, now, cfg.studyMinutes))
        else a.sessions;
      var unstamped := if t.study then stopped.(sessionStart := None) else stopped;
      var next := !t.study;
      AppState(unstamped.(study := next, timeLeft := PhaseLength(cfg, next), pendingAutoStarts := unstamped.pendingAutoStarts + 1), sessions)
  }
}
